=== FILE: README.md ===
# rag-doc-assistant backend in Dafny

This project models the backend core of rag-doc-assistant, a
retrieval-augmented question-answering service. The backend stores uploaded
`.txt` files as documents, cuts each one into chunks with a 384-dimensional
embedding, and answers questions from the five chunks nearest to the
question. The model covers:

- the two tables, `documents` and `chunks`, with their keys, the foreign key
  with ON DELETE CASCADE, the status column default, and the `Vector(384)`
  column (`Models`);
- `POST /upload`: the suffix check, disk write, document commit and
  re-read, read and chunking, the embedding loop, and the final chunk
  commit. Each failing step maps to a failure and an HTTP status
  (`UploadRoute`, `Http.Status`);
- `GET /documents` and `DELETE /documents/{id}` (`DocumentRoutes`);
- `POST /query`: embed the question, take the nearest chunks (`ORDER BY
  distance LIMIT 5`), return 404 when there are none, join their contents
  with `"\n---\n"`, look up filenames, call the generator, and return
  `sorted(set(...))` of the filenames as sources. The except clauses are
  modelled too (`QaRoute`, with the selection itself in `Retrieval`);
- the routers mounted over one database, as a step function on requests
  (`App`).

Every operation is a pure function from a `Store` to a new `Store` and a
reply. Each disk or database step that can fail reads a boolean in
`UploadIo` (upload) or `QueryIo` (query); each collaborator call that
raises returns `None`. So every failure path is a reachable input. Some work happens
outside the core: cutting text into pieces, embedding a string, the vector
distance, and the language model. These are arrow-typed fields of
`Collaborators.Services`. An embedding or chunking call that raises
returns `None`.

Behaviour of the code worth stating:

- No code writes a document status, so every document keeps the column
  default "PENDING". `Models.AllPending` is an invariant of every request
  (`App.HandleKeepsInvariants`).
- A failure after the document commit, including a failed re-read of the
  new row, leaves that row committed. Because chunks are only committed at
  the end, that document owns no chunk (`UploadRoute.CommittedBeforeChunking`).
- Text that cuts into no pieces is accepted: the upload succeeds with a
  document that owns no chunk (`UploadRoute.EmptyChunkListAccepted`).
- A query whose question embeds with 384 components and whose search runs
  answers 404 when the store holds no chunk (`QaRoute.QueryFailureStatus`).
- Every failure is answered at once as an HTTP error; none is written to
  the document row.

## Model

| member | source | states |
|---|---|---|
| Http.Status | backend/app/routes/routes_upload.py:26-85 | Only two failures answer 400: a filename without `.txt` and unreadable content. Only two answer 404: an unknown document id (routes_documents.py:36-40) and a search with no result (routes_qa.py:41-45). Every other failure, including the uncaught chunk commit, is a 500. |
| Models.AddDocument | backend/app/models/document.py:9-15 | The new row takes the next serial id, which was not in use. It keeps the filename, gets the default status "PENDING", and takes the database clock. No chunk is touched, the store stays valid, and the new document owns no chunk. |
| Models.AddChunks | backend/app/models/chunk.py:8-12 | The i-th piece becomes the row with the i-th next serial id. That row holds the document id, the piece, and its vector. The sequence advances by the number of pieces, and existing rows and documents are unchanged. |
| Models.AddChunksValid | backend/app/models/chunk.py:9-11 | Adding chunks keeps the store valid when their document exists and every vector has dimension 384. |
| Models.AddChunksOwned | backend/app/models/chunk.py:9 | If the document owned no chunk before, it owns exactly the block of ids just allocated afterwards. |
| Models.RemoveDocument | backend/app/models/document.py:18 | Deleting a document removes that row and exactly the chunks whose foreign key names it. All other rows keep their values, and validity and the all-PENDING invariant are preserved. |
| Models.RemoveUnowned | backend/app/models/document.py:18 | Deleting a document that owns no chunk leaves the chunks table unchanged. |
| Models.RemoveAddedChunks | backend/app/models/chunk.py:9 | Deleting a document right after adding its chunks, when it owned none before, gives back the earlier chunks table exactly. |
| Models.Rows | backend/app/routes/routes_qa.py:34-36 | The rows a `SELECT` over chunks sees are exactly the stored chunks, one per key. |
| Models.RowsAscending | backend/app/models/chunk.py:8 | In a valid store the rows are listed in strictly ascending id, so each row appears once. |
| Models.StoredUnderId | backend/app/models/chunk.py:8 | In a valid store a stored chunk is found under its own primary key. |
| Retrieval.SortPermutation | backend/app/routes/routes_qa.py:34-36 | Ordering the rows by distance keeps every row, each as often as it occurs. |
| Retrieval.SortSorted | backend/app/routes/routes_qa.py:36 | The ordered rows have non-decreasing distance. |
| Retrieval.InsertSorted | backend/app/routes/routes_qa.py:36 | Placing one row into rows already ordered by distance keeps them ordered. |
| Retrieval.Nearest | backend/app/routes/routes_qa.py:34-39 | Exactly min(k, number of rows) rows come back. The lemmas below state which rows and in what order. |
| Retrieval.NearestIsOrderByLimit | backend/app/routes/routes_qa.py:34-39 | The selection is what `ORDER BY distance LIMIT k` may return: the first k of some permutation of all rows sorted by distance. |
| Retrieval.NearestSorted | backend/app/routes/routes_qa.py:36 | The selected chunks come nearest first. |
| Retrieval.NearestClosest | backend/app/routes/routes_qa.py:36-37 | No unselected row is nearer than any selected row. |
| Retrieval.NearestFromPool | backend/app/routes/routes_qa.py:35 | The selection draws from the rows without repeating any row beyond its multiplicity. |
| Retrieval.NearestDistinct | backend/app/routes/routes_qa.py:34-39 | When no row of the table occurs twice, no row occurs twice in the selection. |
| UploadRoute.Upload | backend/app/routes/routes_upload.py:20-91 | A bad suffix is the one NotTxt failure, and nothing before the document commit changes the store. After the commit, the new PENDING document stays whatever happens next, even when its re-read fails. The chunks table changes only on success, and success replies with the new id and the filename. |
| UploadRoute.RejectedBeforeRecording | backend/app/routes/routes_upload.py:26-58 | A refusal before the document commit leaves the store as it was: a bad suffix is a 400, and a failed write or commit is a 500. A re-read that fails after the commit is the same 500, but the store keeps the committed PENDING row. |
| UploadRoute.CommittedBeforeChunking | backend/app/routes/routes_upload.py:45-58 | Once the document commit succeeds, the row stays with the default status, and any later failure, the re-read included, leaves it with no chunk. |
| UploadRoute.UnreadableIsBadRequest | backend/app/routes/routes_upload.py:60-71 | After the commit, the reply is "unreadable" (400) exactly when reading, decoding or chunking raises. |
| UploadRoute.EmbedAll | backend/app/routes/routes_upload.py:74-85 | The loop either embeds every piece in order or reports the 1-based number of the first piece whose embedding raised. Every piece before that one embedded. |
| UploadRoute.StorePieces | backend/app/routes/routes_upload.py:73-88 | After the document is recorded, the chunks table changes only through the one commit after the loop. The reply is ChunksNotCommitted exactly when every piece embedded but that commit failed or a vector was not 384 long. On success the commit passed, every piece embedded, and the store gains exactly those rows. |
| UploadRoute.EmbedStopsAtFailure | backend/app/routes/routes_upload.py:80-85 | After a failure no later piece is handed to the embedder: an embedder that differs only on later pieces gives the same outcome. |
| UploadRoute.EmbedAllSucceeds | backend/app/routes/routes_upload.py:74-79 | The loop runs to the end exactly when every piece embeds. |
| UploadRoute.EmbeddingFailureNamesPiece | backend/app/routes/routes_upload.py:80-85 | A 500 for piece idx means idx is between 1 and the number of pieces, piece idx failed, and every earlier piece embedded. |
| UploadRoute.UploadChunksInOrder | backend/app/routes/routes_upload.py:74-91 | A successful upload gives the new document exactly one chunk per piece, under consecutive ids in piece order. Each chunk holds its piece and that piece's embedding. |
| UploadRoute.UploadSuccessStore | backend/app/routes/routes_upload.py:87-91 | Success means every step passed, the final chunk commit included, every vector had dimension 384, and the store is the old one plus the document plus its chunks. |
| UploadRoute.UploadSucceeds | backend/app/routes/routes_upload.py:20-91 | The upload succeeds exactly when the suffix, disk write, document commit and re-read, read and chunking, every embedding, the 384 dimension and the final chunk commit all pass. |
| UploadRoute.EmptyChunkListAccepted | backend/app/routes/routes_upload.py:64-91 | Text that cuts into no pieces still succeeds, and the new document owns no chunk. |
| UploadRoute.SameFilenameTwice | backend/app/models/document.py:10 | Filenames are not unique. Two uploads of one name leave two documents with distinct ids and that name. |
| UploadRoute.UploadKeepsValid | backend/app/routes/routes_upload.py:20-91 | Every outcome of an upload keeps the store valid and all documents PENDING. |
| DocumentRoutes.ListDocuments | backend/app/routes/routes_documents.py:16-23 | There is one entry per document, and each holds that document's id, filename, creation time and status. |
| DocumentRoutes.ListingCoversStore | backend/app/routes/routes_documents.py:16-23 | Entries have distinct ids, and every stored document appears in the listing. |
| DocumentRoutes.DeleteDocument | backend/app/routes/routes_documents.py:25-47 | An unknown id fails with 404, naming the id. Otherwise the document goes, with exactly its chunks. Everything else is unchanged, and the invariants hold. |
| DocumentRoutes.DeleteLeavesOthers | backend/app/routes/routes_documents.py:42-45 | Deleting one document leaves every other document and all of its chunks as they were. |
| QaRoute.Sources | backend/app/routes/routes_qa.py:77 | Sources are strictly sorted, so they are distinct. There are no more of them than chunks, and a name appears exactly when it names some retrieved chunk's document, with the default name when that document is missing. |
| QaRoute.FilenameLookup | backend/app/routes/routes_qa.py:51-59 | The map holds exactly the requested ids that name stored documents, each with its filename. |
| QaRoute.Except | backend/app/routes/routes_qa.py:81-87 | An HTTP error raised inside the try passes through unchanged, and any other exception becomes a 500. |
| QaRoute.Query | backend/app/routes/routes_qa.py:21-87 | The route fails only with "nothing relevant" (404) or an internal error (500), and a success needs an embedded question and at least one stored chunk. |
| QaRoute.QueryFailureStatus | backend/app/routes/routes_qa.py:28-45 | The route answers 404 exactly when the question embeds with 384 components, the search runs, and the store holds no chunk. Every other failure is a 500. |
| QaRoute.NoChunksNoGenerator | backend/app/routes/routes_qa.py:41-45 | With no chunk stored, the generator is never consulted: swapping it changes nothing, and the query does not succeed. |
| QaRoute.QuerySucceeds | backend/app/routes/routes_qa.py:28-45 | The route succeeds exactly when the question embeds with 384 components (the `Vector(384)` parameter of the search), the search and the filename lookup both succeed, and the store holds at least one chunk. |
| QaRoute.QueryAnswer | backend/app/routes/routes_qa.py:30-79 | A success used one to five retrieved chunks. Their contents are joined in retrieval order with the separator and given to the generator with the question. The sources are the sorted distinct names of their documents. |
| QaRoute.SearchOrder | backend/app/routes/routes_qa.py:34-39 | The search returns stored chunks, as many as the store holds up to five, nearest first. No stored chunk left out is nearer than one returned. |
| QaRoute.SearchDistinct | backend/app/routes/routes_qa.py:34-39 | In a valid store no two returned chunks share an id: the search returns distinct rows. |
| QaRoute.SourcesNameStoredDocuments | backend/app/routes/routes_qa.py:51-77 | In a valid store, every source computed from the retrieved chunks is the filename of a stored document owning one of them, so the default name comes up only as a real filename. |
| Text.SortedSet | backend/app/routes/routes_qa.py:77 | The result is strictly ascending in Python's string order, holds exactly the input's elements, and is no longer than the input. |
| Text.StrictlySortedUnique | backend/app/routes/routes_qa.py:77 | Two strictly sorted lists with the same elements are equal, so `sorted(set(...))` is determined by the set of names. |
| Text.Join | backend/app/routes/routes_qa.py:48 | No parts join to the empty string, one part joins to itself, and a join starts with its first part. |
| Text.JoinSplit | backend/app/routes/routes_qa.py:48 | Joining splits at any boundary into the join of each side with the separator between them. |
| Text.JoinLength | backend/app/routes/routes_qa.py:48 | The context is as long as the chunk contents together plus one separator between each neighbouring pair. |
| App.Handle | backend/app/main.py:23-25 | Each request reaches its own router. Listing and querying leave the store unchanged. A deletion succeeds exactly for a stored id and then removes that document and all its chunks; a refused one changes nothing and names the id. An accepted upload answers with the next document id and the filename, and its document is stored. Once the document commit passed, the document stays whatever follows, and a refused upload leaves the chunks table unchanged. |
| App.HandleKeepsInvariants | backend/app/models/chunk.py:8-12 | Every request keeps the keys, the foreign key, the 384 dimension and the all-PENDING statuses. |
| App.RunKeepsInvariants | backend/app/models/document.py:9-18 | From empty tables, any sequence of requests leaves a valid store whose documents are all PENDING. |
| App.UploadThenDeleteRestores | backend/app/routes/routes_documents.py:42-45 | Deleting the document an upload committed restores both tables exactly, whether the upload succeeded or failed after the document commit. |

## Left out

- Writing the file to `uploaded_docs/` and reading it back is a boolean and an optional text. Directory creation and file-name collisions on disk are not modelled.
- UTF-8 decoding is not modelled: a file that cannot be decoded is `None` text.
- The chunker (`app.services.chunking.chunk_text`) is not part of this model. It is an opaque collaborator returning pieces or raising.
- The embedder is an opaque collaborator. The query route imports `get_embedding_async`, but `backend/app/services/embeddings.py` defines only `get_embedding`. Both are modelled by the one `embed` function.
- Models.Vector: embeddings are sequences of reals. 32-bit floats and their rounding are not modelled.
- The distance (`<->`) is an opaque real-valued function. Whether it is cosine or Euclidean, and its float arithmetic, are not modelled.
- Retrieval.Nearest: rows at equal distance are taken in ascending id order, which is one order PostgreSQL may produce. `Retrieval.NearestIsOrderByLimit` states only what every tie order shares.
- The prompt text is folded into the generator. The generator receives the question and the context, and `get_gemini_response` (which returns an error string instead of raising) is an opaque total function.
- DocumentRoutes.ListDocuments: the SQL has no ORDER BY, so the row order is unspecified. The model lists documents in ascending id, one order the database may choose.
- Database failures in the listing and deletion routes are not modelled as separate outcomes. A failed document commit is rolled back and leaves the tables unchanged.
- UploadRoute.Upload: failed commits are modelled as drawing no value from the id sequences. PostgreSQL does not give back sequence values drawn by an INSERT whose transaction then fails, so later ids can be larger than the model's `nextDocId` and `nextChunkId`. Ids stay unique and increasing either way.
- Models.RemoveDocument: `backend/app/models/document.py` declares the `chunks` relationship with `back_populates="document"`, but `backend/app/models/chunk.py` declares no `document` property. The model assumes the two-sided relationship works as intended and the ORM maps both tables.
- Transactions, sessions and concurrent requests are not modelled: each request is one atomic step. The default source name is reachable only when a document is deleted between the search and the lookup, which the model cannot express.
- Serial ids are unbounded integers. Overflow of the 32-bit `Integer` column is not modelled.
- Success status codes (201, 204) and human-readable message texts are not modelled. Error details are reduced to the `Http.Failure` constructor.
- The `delete-orphan` cascade on the relationship never fires, because no code detaches a chunk from its document.
- The nullable `document_id` and `content` columns are never written as null by the routes, so they are plain fields.
- Logging, the `/api` prefix, router tags, CORS and the health endpoint of `main.py`, database session setup, configuration, and the React frontend are not modelled.

=== FILE: app.dfy ===
/**
 The application: the three routers mounted side by side over one database.
 A request is one step from a store to a store and a response.
 */
module App {
  import opened Wrappers
  import opened Models
  import opened Http
  import opened Collaborators
  import opened UploadRoute
  import opened DocumentRoutes
  import opened QaRoute

  datatype Request =
    | UploadRequest(file: UploadFile, uploadIo: UploadIo)
    | ListRequest
    | DeleteRequest(id: int)
    | QueryRequest(question: string, queryIo: QueryIo)

  datatype Response =
    | Uploaded(reply: UploadReply)
    | Listed(entries: seq<DocumentEntry>)
    | Deleted
    | Answered(answer: QueryReply)
    | Rejected(failure: Failure)

  function Handle(s: Store, req: Request, svc: Services): (r: (Store, Response))
    // the listing and the query only read
    ensures req.ListRequest? || req.QueryRequest? ==> r.0 == s
    // a deletion is accepted exactly for a stored id, and then removes that
    // document with all its chunks; a refused one changes nothing
    ensures req.DeleteRequest? ==> (r.1.Deleted? <==> req.id in s.docs)
    ensures req.DeleteRequest? && r.1.Deleted? ==> r.0.docs == s.docs - {req.id} && ChunksOf(r.0, req.id) == {}
    ensures req.DeleteRequest? && r.1.Rejected? ==> r.0 == s && r.1.failure == DocumentNotFound(req.id)
    // an upload answers with the new id, and its document stays once committed
    ensures req.UploadRequest? && r.1.Uploaded? ==>
              r.1.reply == UploadReply(s.nextDocId, req.file.filename) && s.nextDocId in r.0.docs
    ensures req.UploadRequest? && Committed(req.file, req.uploadIo) ==> s.nextDocId in r.0.docs
    ensures req.UploadRequest? && r.1.Rejected? ==> r.0.chunks == s.chunks
  {
    match req
    case UploadRequest(file, io) =>
      var out := Upload(s, file, io, svc);
      (out.store, match out.reply case Success(reply) => Uploaded(reply) case Failure(f) => Rejected(f))
    case ListRequest => (s, Listed(ListDocuments(s)))
    case DeleteRequest(id) =>
      (match DeleteDocument(s, id) case Success(t) => (t, Deleted) case Failure(f) => (s, Rejected(f)))
    case QueryRequest(question, io) =>
      (s, match Query(s, question, io, svc) case Success(reply) => Answered(reply) case Failure(f) => Rejected(f))
  }

  /** Every request keeps the schema's invariants, and since no route writes
      a status, every document stays "PENDING" for ever. */
  lemma HandleKeepsInvariants(s: Store, req: Request, svc: Services)
    requires Valid(s) && AllPending(s)
    ensures Valid(Handle(s, req, svc).0) && AllPending(Handle(s, req, svc).0)
  {
    if req.UploadRequest? {
      UploadKeepsValid(s, req.file, req.uploadIo, svc);
    }
  }

  /** The same holds of any sequence of requests from the empty database. */
  lemma {:induction false} RunKeepsInvariants(reqs: seq<Request>, svc: Services)
    ensures Valid(Run(reqs, svc)) && AllPending(Run(reqs, svc))
  {
    if |reqs| == 0 {
      EmptyIsValid();
    } else {
      RunKeepsInvariants(reqs[..|reqs| - 1], svc);
      HandleKeepsInvariants(Run(reqs[..|reqs| - 1], svc), reqs[|reqs| - 1], svc);
    }
  }

  /** The store after serving `reqs` in order, starting from empty tables. */
  function Run(reqs: seq<Request>, svc: Services): Store
  {
    if |reqs| == 0 then Empty
    else Handle(Run(reqs[..|reqs| - 1], svc), reqs[|reqs| - 1], svc).0
  }

  /** Deleting the document an upload committed undoes the upload: both
      tables are back to what they were, whether the upload succeeded or
      failed after its document commit. */
  lemma UploadThenDeleteRestores(s: Store, file: UploadFile, io: UploadIo, svc: Services)
    requires Valid(s) && Committed(file, io)
    ensures var t := Upload(s, file, io, svc).store;
      && DeleteDocument(t, s.nextDocId).Success?
      && DeleteDocument(t, s.nextDocId).value.docs == s.docs
      && DeleteDocument(t, s.nextDocId).value.chunks == s.chunks
  {
    var out := Upload(s, file, io, svc);
    var t := out.store;
    var id := s.nextDocId;
    CommittedBeforeChunking(s, file, io, svc);
    var d := DeleteDocument(t, id).value;
    assert d == RemoveDocument(t, id);
    assert d.docs == s.docs;
    if out.reply.Success? {
      UploadSuccessStore(s, file, io, svc);
      var s1 := AddDocument(s, file.filename, io.documentTime).0;
      var pieces := svc.chunkText(file.text.value).value;
      assert forall cid | cid in s1.chunks :: cid < s1.nextChunkId && s1.chunks[cid].documentId != id by {
        forall cid | cid in s1.chunks ensures cid < s1.nextChunkId && s1.chunks[cid].documentId != id {
          assert s.chunks[cid].documentId in s.docs;
        }
      }
      RemoveAddedChunks(s1, id, pieces, EmbedAll(pieces, svc.embed).vectors, io.chunksTime);
    } else {
      RemoveUnowned(t, id);
    }
  }
}

=== FILE: collaborators.dfy ===
/**
 The code the routes call but that is not part of this model, as opaque
 functions handed in by the caller:
 - `chunkText`: the chunker of the services package; `None` when it raises;
 - `embed`: the sentence-transformer encoder, for upload pieces and for
   questions alike; `None` when it raises;
 - `distance`: the pgvector `<->` operator between a stored embedding and
   the question's embedding; which metric it is stays open;
 - `generate`: the generative-model call on the fixed prompt template filled
   with the question and the context. It never fails: the service catches
   every error and answers with a fixed sentence instead.
 */
module Collaborators {
  import opened Wrappers
  import opened Models

  datatype Services = Services(
    chunkText: string -> Option<seq<string>>,
    embed: string -> Option<Vector>,
    distance: (Vector, Vector) -> real,
    generate: (string, string) -> string)
}

=== FILE: documents.dfy ===
/**
 `GET /documents` and `DELETE /documents/{id}`.

 Listing reads the documents table and answers one entry per row; it has no
 store to return, so it cannot change one. Deleting checks that the id
 exists (404 otherwise, with nothing changed), then deletes the row, and the
 cascade takes every chunk that points at it.
 */
module DocumentRoutes {
  import opened Wrappers
  import opened Models
  import opened Http
  import Keys

  /** One element of the listing's JSON array. */
  datatype DocumentEntry = DocumentEntry(id: int, filename: string, createdAt: Time, status: string)

  function Entry(d: Document): DocumentEntry
  {
    DocumentEntry(d.id, d.filename, d.createdAt, d.status)
  }

  /** The listing. The query has no ORDER BY, so the database picks the
      order; the model answers in ascending id, one of the orders it may pick. */
  function ListDocuments(s: Store): (r: seq<DocumentEntry>)
    ensures |r| == |s.docs|
    ensures DocsKeyedById(s) ==> forall i :: 0 <= i < |r| ==> r[i].id in s.docs && r[i] == Entry(s.docs[r[i].id])
  {
    var ids := Keys.Ascending(s.docs.Keys);
    seq(|ids|, i requires 0 <= i < |ids| => Entry(s.docs[ids[i]]))
  }

  lemma ListingIds(s: Store)
    requires DocsKeyedById(s)
    ensures forall i :: 0 <= i < |ListDocuments(s)| ==> ListDocuments(s)[i].id == Keys.Ascending(s.docs.Keys)[i]
  {
    var ids := Keys.Ascending(s.docs.Keys);
    var r := ListDocuments(s);
    forall i | 0 <= i < |r| ensures r[i].id == ids[i] {
      assert r[i] == Entry(s.docs[ids[i]]);
      assert ids[i] in s.docs;
    }
  }

  /** Since every row sits under its own key, the listing names every
      stored document exactly once. */
  lemma ListingCoversStore(s: Store)
    requires DocsKeyedById(s)
    ensures var r := ListDocuments(s);
      && (forall i, j :: 0 <= i < j < |r| ==> r[i].id != r[j].id)
      && forall id :: id in s.docs ==> exists i :: 0 <= i < |r| && r[i] == Entry(s.docs[id])
  {
    var ids := Keys.Ascending(s.docs.Keys);
    var r := ListDocuments(s);
    ListingIds(s);
    forall id | id in s.docs ensures exists i :: 0 <= i < |r| && r[i] == Entry(s.docs[id]) {
      var i :| 0 <= i < |ids| && ids[i] == id;
      assert r[i] == Entry(s.docs[ids[i]]);
    }
  }

  /** The deletion route: 404 and no change for an unknown id, otherwise
      the document and exactly its own chunks are gone. */
  function DeleteDocument(s: Store, id: int): (r: Result<Store, Failure>)
    ensures r.Failure? <==> id !in s.docs
    ensures r.Failure? ==> r.error == DocumentNotFound(id) && Status(r.error) == NotFound
    ensures r.Success? ==>
              && r.value.docs == s.docs - {id}
              && (forall cid :: cid in r.value.chunks <==> cid in s.chunks && s.chunks[cid].documentId != id)
              && (forall cid | cid in r.value.chunks :: r.value.chunks[cid] == s.chunks[cid])
              && ChunksOf(r.value, id) == {}
    ensures r.Success? && Valid(s) ==> Valid(r.value)
    ensures r.Success? && AllPending(s) ==> AllPending(r.value)
  {
    if id !in s.docs then Failure(DocumentNotFound(id))
    else Success(RemoveDocument(s, id))
  }

  /** Deleting one document leaves every other document, and every chunk of
      every other document, exactly as it was. */
  lemma DeleteLeavesOthers(s: Store, id: int, other: int)
    requires DeleteDocument(s, id).Success? && other != id
    ensures var t := DeleteDocument(s, id).value;
      && (other in s.docs <==> other in t.docs)
      && (other in s.docs ==> t.docs[other] == s.docs[other])
      && ChunksOf(t, other) == ChunksOf(s, other)
      && forall cid | cid in ChunksOf(s, other) :: t.chunks[cid] == s.chunks[cid]
  {
  }
}

=== FILE: http.dfy ===
/** The errors the three routes answer with, one constructor per raise site,
    and the HTTP status code each becomes. */
module Http {

  const BadRequest: int := 400
  const NotFound: int := 404
  const InternalServerError: int := 500

  datatype Failure =
    | NotTxt                       // upload: filename without the .txt suffix
    | SaveFailed                   // upload: the file could not be written to disk
    | DocumentNotRecorded          // upload: committing or re-reading the documents row failed
    | Unreadable                   // upload: reading, decoding or chunking failed
    | EmbeddingFailed(piece: nat)  // upload: embedding the piece-th piece (1-based) failed
    | ChunksNotCommitted           // upload: the final commit raised; no handler catches it
    | DocumentNotFound(id: int)    // delete: no document with that id
    | NothingRelevant              // query: the search returned no chunk
    | Internal                     // query: any other exception, caught and wrapped

  function Status(f: Failure): (code: int)
    ensures code in {BadRequest, NotFound, InternalServerError}
    ensures code == NotFound <==> f.DocumentNotFound? || f.NothingRelevant?
    ensures code == BadRequest <==> f.NotTxt? || f.Unreadable?
  {
    match f
    case NotTxt => BadRequest
    case Unreadable => BadRequest
    case DocumentNotFound(_) => NotFound
    case NothingRelevant => NotFound
    case _ => InternalServerError
  }
}

=== FILE: keys.dfy ===
/** Integer primary keys listed in ascending order: the order in which the
    model walks a table whose rows the database returns in no stated order. */
module Keys {

  lemma NonEmptyHasMember(ks: set<int>)
    requires ks != {}
    ensures exists k :: k in ks
  {
    assert (forall k :: k !in ks) ==> ks == {};
  }

  lemma {:induction false} LeastExists(ks: set<int>)
    requires ks != {}
    ensures exists m :: m in ks && forall k | k in ks :: m <= k
    decreases |ks|
  {
    NonEmptyHasMember(ks);
    var x :| x in ks;
    if ks - {x} == {} {
      forall k | k in ks ensures x <= k {
        assert k !in ks - {x};
      }
    } else {
      LeastExists(ks - {x});
      var m :| m in ks - {x} && forall k | k in ks - {x} :: m <= k;
      var least := if x < m then x else m;
      forall k | k in ks ensures least <= k {
        if k != x {
          assert k in ks - {x};
        }
      }
      assert least in ks;
    }
  }

  function Least(ks: set<int>): (m: int)
    requires ks != {}
    ensures m in ks && forall k | k in ks :: m <= k
  {
    LeastExists(ks);
    var m :| m in ks && forall k | k in ks :: m <= k;
    m
  }

  predicate Increasing(xs: seq<int>)
  {
    forall i, j :: 0 <= i < j < |xs| ==> xs[i] < xs[j]
  }

  /** Every key of `ks` exactly once, smallest first. */
  function Ascending(ks: set<int>): (r: seq<int>)
    ensures |r| == |ks|
    ensures forall k :: k in r <==> k in ks
    ensures Increasing(r)
    decreases |ks|
  {
    if ks == {} then []
    else
      var m := Least(ks);
      var rest := Ascending(ks - {m});
      ConsIncreasing(m, rest);
      [m] + rest
  }

  lemma ConsIncreasing(m: int, rest: seq<int>)
    requires Increasing(rest) && forall k | k in rest :: m < k
    ensures Increasing([m] + rest)
  {
    var r := [m] + rest;
    forall i, j | 0 <= i < j < |r| ensures r[i] < r[j] {
      assert r[j] == rest[j - 1] && rest[j - 1] in rest;
      if i > 0 {
        assert r[i] == rest[i - 1];
      }
    }
  }
}

=== FILE: models.dfy ===
/**
 The two tables of the backend and the store that holds them.

 A `documents` row has a serial primary key, a required but not unique
 filename, a status string whose column default is "PENDING", and a creation
 time; its `chunks` relationship cascades deletion. A `chunks` row has a serial
 primary key, the id of its document (a foreign key with ON DELETE CASCADE),
 its text, and a pgvector embedding of fixed dimension 384.

 The database is a `Store`: a map per table keyed by primary key, so keys are
 unique by construction, plus the next value of each serial sequence.
 */
module Models {
  import Keys

  /** A clock reading taken by the database (`now()`); its value is opaque. */
  type Time = int

  type Vector = seq<real>

  /** Default of the documents.status column, and the only status any code
      path ever writes. */
  const Pending: string := "PENDING"

  /** Dimension of the chunks.embedding column, `Vector(384)`. */
  const EmbeddingDim: nat := 384

  datatype Document = Document(id: int, filename: string, status: string, createdAt: Time)

  datatype Chunk = Chunk(id: int, documentId: int, content: string, embedding: Vector, createdAt: Time)

  datatype Store = Store(
    docs: map<int, Document>,
    chunks: map<int, Chunk>,
    nextDocId: int,
    nextChunkId: int)

  /** A database with both tables empty and both sequences at their start. */
  const Empty: Store := Store(map[], map[], 1, 1)

  predicate HasDimension(v: Vector)
  {
    |v| == EmbeddingDim
  }

  /** Each documents row sits under its own primary key. */
  predicate DocsKeyedById(s: Store)
  {
    forall id | id in s.docs :: s.docs[id].id == id
  }

  /** What the schema enforces of every committed state: each row sits under
      its own primary key, keys were drawn from the sequences, every chunk
      points at a live document, and every embedding has 384 components. */
  predicate Valid(s: Store)
  {
    && 1 <= s.nextDocId
    && 1 <= s.nextChunkId
    && DocsKeyedById(s)
    && (forall id | id in s.docs :: 1 <= id < s.nextDocId)
    && (forall cid | cid in s.chunks ::
          && s.chunks[cid].id == cid
          && 1 <= cid < s.nextChunkId
          && s.chunks[cid].documentId in s.docs
          && HasDimension(s.chunks[cid].embedding))
  }

  /** Every stored document still carries the column default. */
  predicate AllPending(s: Store)
  {
    forall id | id in s.docs :: s.docs[id].status == Pending
  }

  /** Primary keys of the chunks that belong to document `docId`. */
  function ChunksOf(s: Store, docId: int): set<int>
  {
    set cid | cid in s.chunks && s.chunks[cid].documentId == docId
  }

  lemma EmptyIsValid()
    ensures Valid(Empty) && AllPending(Empty)
    ensures forall id :: ChunksOf(Empty, id) == {}
  {
  }

  /** Inserts and commits a documents row; only the filename is given, so
      the status takes its default and the id the next sequence value. */
  function AddDocument(s: Store, filename: string, now: Time): (r: (Store, int))
    ensures r.1 == s.nextDocId && r.0.nextDocId == s.nextDocId + 1
    ensures r.0.docs == s.docs[r.1 := Document(r.1, filename, Pending, now)]
    ensures r.0.chunks == s.chunks && r.0.nextChunkId == s.nextChunkId
    ensures Valid(s) ==> r.1 !in s.docs && Valid(r.0) && ChunksOf(r.0, r.1) == {}
    ensures AllPending(s) ==> AllPending(r.0)
  {
    var id := s.nextDocId;
    var r := s.(docs := s.docs[id := Document(id, filename, Pending, now)], nextDocId := id + 1);
    assert Valid(s) ==> forall cid | cid in r.chunks :: r.chunks[cid].documentId != id;
    assert (forall cid :: cid !in ChunksOf(r, id)) ==> ChunksOf(r, id) == {};
    (r, id)
  }

  /** In a valid store, every chunk was drawn before the next sequence value
      and none belongs to the document just added. */
  lemma AddDocumentFresh(s: Store, filename: string, now: Time)
    requires Valid(s)
    ensures var r := AddDocument(s, filename, now).0;
      forall cid | cid in r.chunks :: cid < r.nextChunkId && r.chunks[cid].documentId != s.nextDocId
  {
    forall cid | cid in s.chunks ensures cid < s.nextChunkId && s.chunks[cid].documentId != s.nextDocId {
      assert s.chunks[cid].documentId in s.docs;
    }
  }

  /** The n sequence values drawn after `lo`. */
  function Span(lo: int, n: nat): (r: set<int>)
    ensures forall k :: k in r <==> lo <= k < lo + n
    ensures |r| == n
  {
    if n == 0 then {}
    else
      var r := Span(lo, n - 1) + {lo + n - 1};
      assert lo + n - 1 !in Span(lo, n - 1);
      r
  }

  /** The rows for `pieces`, keyed by the sequence values from `base` on. */
  function NewRows(base: int, docId: int, pieces: seq<string>, vectors: seq<Vector>, now: Time): (rows: map<int, Chunk>)
    requires |pieces| == |vectors|
    ensures forall cid :: cid in rows <==> base <= cid < base + |pieces|
    ensures forall i :: 0 <= i < |pieces| ==> rows[base + i] == Chunk(base + i, docId, pieces[i], vectors[i], now)
    decreases |pieces|
  {
    if |pieces| == 0 then map[]
    else
      var rest := NewRows(base + 1, docId, pieces[1..], vectors[1..], now);
      assert forall i :: 1 <= i < |pieces| ==> rest[(base + 1) + (i - 1)] == Chunk(base + i, docId, pieces[i], vectors[i], now);
      rest[base := Chunk(base, docId, pieces[0], vectors[0], now)]
  }

  /** Inserts and commits one chunks row per piece, in order, all belonging
      to `docId`; the i-th piece gets the i-th next sequence value. */
  function AddChunks(s: Store, docId: int, pieces: seq<string>, vectors: seq<Vector>, now: Time): (r: Store)
    requires |pieces| == |vectors|
    ensures r.docs == s.docs && r.nextDocId == s.nextDocId
    ensures r.nextChunkId == s.nextChunkId + |pieces|
    ensures forall i :: 0 <= i < |pieces| ==>
              && s.nextChunkId + i in r.chunks
              && r.chunks[s.nextChunkId + i] == Chunk(s.nextChunkId + i, docId, pieces[i], vectors[i], now)
    ensures forall cid :: cid in r.chunks <==> cid in s.chunks || s.nextChunkId <= cid < s.nextChunkId + |pieces|
    ensures forall cid | cid in s.chunks && cid < s.nextChunkId :: r.chunks[cid] == s.chunks[cid]
  {
    s.(chunks := s.chunks + NewRows(s.nextChunkId, docId, pieces, vectors, now), nextChunkId := s.nextChunkId + |pieces|)
  }

  /** The i-th added row, on its own. */
  lemma AddChunksAt(s: Store, docId: int, pieces: seq<string>, vectors: seq<Vector>, now: Time, i: nat)
    requires |pieces| == |vectors| && i < |pieces|
    ensures var r := AddChunks(s, docId, pieces, vectors, now);
      s.nextChunkId + i in r.chunks && r.chunks[s.nextChunkId + i] == Chunk(s.nextChunkId + i, docId, pieces[i], vectors[i], now)
  {
  }

  /** New chunks that point at a live document and have the column's
      dimension keep the store valid. */
  lemma AddChunksValid(s: Store, docId: int, pieces: seq<string>, vectors: seq<Vector>, now: Time)
    requires |pieces| == |vectors|
    ensures Valid(s) && docId in s.docs && (forall i | 0 <= i < |vectors| :: HasDimension(vectors[i]))
            ==> Valid(AddChunks(s, docId, pieces, vectors, now))
  {
    var r := AddChunks(s, docId, pieces, vectors, now);
    forall cid | Valid(s) && docId in s.docs && (forall i | 0 <= i < |vectors| :: HasDimension(vectors[i])) && cid in r.chunks
      ensures r.chunks[cid].id == cid && 1 <= cid < r.nextChunkId
      ensures r.chunks[cid].documentId in r.docs && HasDimension(r.chunks[cid].embedding)
    {
      if cid < s.nextChunkId {
        assert r.chunks[cid] == s.chunks[cid];
      } else {
        var i := cid - s.nextChunkId;
        assert r.chunks[s.nextChunkId + i] == Chunk(s.nextChunkId + i, docId, pieces[i], vectors[i], now);
      }
    }
  }

  /** When no chunk belonged to `docId` before, its chunks afterwards are
      exactly the rows just added. */
  lemma AddChunksOwned(s: Store, docId: int, pieces: seq<string>, vectors: seq<Vector>, now: Time)
    requires |pieces| == |vectors|
    requires forall cid | cid in s.chunks :: cid < s.nextChunkId && s.chunks[cid].documentId != docId
    ensures ChunksOf(AddChunks(s, docId, pieces, vectors, now), docId) == Span(s.nextChunkId, |pieces|)
  {
    var r := AddChunks(s, docId, pieces, vectors, now);
    var span := Span(s.nextChunkId, |pieces|);
    forall cid ensures cid in ChunksOf(r, docId) <==> cid in span {
      if cid in span {
        var i := cid - s.nextChunkId;
        AddChunksAt(s, docId, pieces, vectors, now, i);
      } else if cid in r.chunks {
        assert cid in s.chunks;
        assert r.chunks[cid] == s.chunks[cid];
      }
    }
  }

  /** Deletes a documents row; the cascade deletes exactly the chunks rows
      that point at it. */
  function RemoveDocument(s: Store, id: int): (r: Store)
    ensures r.docs == s.docs - {id}
    ensures forall cid :: cid in r.chunks <==> cid in s.chunks && s.chunks[cid].documentId != id
    ensures forall cid | cid in r.chunks :: r.chunks[cid] == s.chunks[cid]
    ensures ChunksOf(r, id) == {}
    ensures r.nextDocId == s.nextDocId && r.nextChunkId == s.nextChunkId
    ensures Valid(s) ==> Valid(r)
    ensures AllPending(s) ==> AllPending(r)
  {
    s.(docs := s.docs - {id},
       chunks := map cid | cid in s.chunks && s.chunks[cid].documentId != id :: s.chunks[cid])
  }

  /** Removing a document that owns no chunk leaves the chunks table as it
      was. */
  lemma RemoveUnowned(s: Store, id: int)
    requires ChunksOf(s, id) == {}
    ensures RemoveDocument(s, id).chunks == s.chunks
  {
    forall cid | cid in s.chunks ensures s.chunks[cid].documentId != id {
      assert cid !in ChunksOf(s, id);
    }
  }

  /** Removing a document right after adding its chunks, when it owned none
      before, gives back the chunks table from before the addition. */
  lemma RemoveAddedChunks(s: Store, docId: int, pieces: seq<string>, vectors: seq<Vector>, now: Time)
    requires |pieces| == |vectors|
    requires forall cid | cid in s.chunks :: cid < s.nextChunkId && s.chunks[cid].documentId != docId
    ensures RemoveDocument(AddChunks(s, docId, pieces, vectors, now), docId).chunks == s.chunks
  {
    var r := AddChunks(s, docId, pieces, vectors, now);
    var t := RemoveDocument(r, docId);
    forall cid | cid in r.chunks && cid !in s.chunks ensures r.chunks[cid].documentId == docId {
      AddChunksAt(s, docId, pieces, vectors, now, cid - s.nextChunkId);
    }
    assert t.chunks.Keys == s.chunks.Keys;
  }

  /** The chunks table in ascending primary-key order. */
  function Rows(s: Store): (rows: seq<Chunk>)
    ensures |rows| == |s.chunks|
    ensures forall c :: c in rows <==> c in s.chunks.Values
  {
    var ids := Keys.Ascending(s.chunks.Keys);
    var rows := seq(|ids|, i requires 0 <= i < |ids| => s.chunks[ids[i]]);
    ListedValues(s.chunks, ids, rows);
    rows
  }

  /** In a valid store the rows come in ascending id order, so no row is
      listed twice. */
  lemma RowsAscending(s: Store)
    requires Valid(s)
    ensures forall i, j | 0 <= i < j < |Rows(s)| :: Rows(s)[i].id < Rows(s)[j].id
  {
    var ids := Keys.Ascending(s.chunks.Keys);
    forall i | 0 <= i < |ids| ensures Rows(s)[i].id == ids[i] {
      assert ids[i] in s.chunks;
    }
  }

  /** In a valid store a stored chunk sits under its own id. */
  lemma StoredUnderId(s: Store, c: Chunk)
    requires Valid(s) && c in s.chunks.Values
    ensures c.id in s.chunks && s.chunks[c.id] == c
  {
    assert (forall cid | cid in s.chunks :: s.chunks[cid] != c) ==> c !in s.chunks.Values;
    var cid :| cid in s.chunks && s.chunks[cid] == c;
  }

  /** Looking up every key of a map, in any order, yields exactly its values. */
  lemma ListedValues(m: map<int, Chunk>, ids: seq<int>, rows: seq<Chunk>)
    requires forall k :: k in ids <==> k in m
    requires |rows| == |ids| && forall i :: 0 <= i < |ids| ==> ids[i] in m && rows[i] == m[ids[i]]
    ensures forall c :: c in rows <==> c in m.Values
  {
    forall c | c in m.Values ensures c in rows {
      assert (forall k | k in m :: m[k] != c) ==> c !in m.Values;
      var cid :| cid in m && m[cid] == c;
      assert cid in ids;
      var i :| 0 <= i < |ids| && ids[i] == cid;
      assert rows[i] == c;
    }
    forall c | c in rows ensures c in m.Values {
      var i :| 0 <= i < |rows| && rows[i] == c;
      assert m[ids[i]] == c;
    }
  }

}

=== FILE: qa.dfy ===
/**
 `POST /query`: answer a question from the five stored chunks nearest to it.

 Inside one try block the handler embeds the question, fetches the five
 nearest chunks, raises 404 if there are none, joins their contents into a
 context, looks up the filenames of their documents, asks the generator,
 and answers with the sorted distinct filenames as sources. The except
 clauses re-raise an HTTP error unchanged and turn anything else into 500.
 */
module QaRoute {
  import opened Wrappers
  import opened Models
  import opened Http
  import opened Collaborators
  import opened Retrieval
  import opened Text

  /** The LIMIT of the nearest-neighbour query. */
  const Limit: nat := 5

  /** Placed between two chunk contents in the context. */
  const ContextSeparator: string := "\n---\n"

  /** The source name used when a chunk's document is not found. */
  const UnknownDocument: string := "Bilinmeyen Doküman"

  /** Whether each of the two database reads of the route succeeds. */
  datatype QueryIo = QueryIo(searchOk: bool, lookupOk: bool)

  datatype QueryReply = QueryReply(answer: string, sources: seq<string>)

  /** What the try block can raise: an HTTP error of its own, or anything else. */
  datatype Raised = HttpRaised(failure: Failure) | OtherRaised

  /** Distance of a stored chunk from the question's embedding. */
  function DistanceTo(svc: Services, q: Vector): Chunk -> real
  {
    (c: Chunk) => svc.distance(c.embedding, q)
  }

  /** The chunks the search returns for the question embedding `q`. */
  function Search(s: Store, svc: Services, q: Vector): seq<Chunk>
  {
    Nearest(Rows(s), DistanceTo(svc, q), Limit)
  }

  function Contents(chunks: seq<Chunk>): (r: seq<string>)
    ensures |r| == |chunks| && forall i :: 0 <= i < |r| ==> r[i] == chunks[i].content
  {
    seq(|chunks|, i requires 0 <= i < |chunks| => chunks[i].content)
  }

  /** The contents of the retrieved chunks, in retrieval order, separated by
      `ContextSeparator`. */
  function Context(chunks: seq<Chunk>): string
  {
    Join(Contents(chunks), ContextSeparator)
  }

  function DocumentIds(chunks: seq<Chunk>): set<int>
  {
    set c | c in chunks :: c.documentId
  }

  /** The id-to-filename map built from `SELECT id, filename FROM documents
      WHERE id IN ids`. */
  function FilenameLookup(s: Store, ids: set<int>): (names: map<int, string>)
    ensures forall id :: id in names <==> id in ids && id in s.docs
    ensures forall id | id in names :: names[id] == s.docs[id].filename
  {
    map id | id in ids && id in s.docs :: s.docs[id].filename
  }

  /** `names.get(c.document_id, UnknownDocument)`. */
  function SourceName(names: map<int, string>, c: Chunk): string
  {
    if c.documentId in names then names[c.documentId] else UnknownDocument
  }

  /** `sorted(set(SourceName(names, c) for c in chunks))`. */
  function Sources(chunks: seq<Chunk>, names: map<int, string>): (r: seq<string>)
    ensures StrictlySorted(r)
    ensures |r| <= |chunks|
    ensures forall x :: x in r <==> exists i :: 0 <= i < |chunks| && x == SourceName(names, chunks[i])
  {
    var all := seq(|chunks|, i requires 0 <= i < |chunks| => SourceName(names, chunks[i]));
    assert forall x :: x in all <==> exists i :: 0 <= i < |chunks| && x == SourceName(names, chunks[i]) by {
      forall x | x in all ensures exists i :: 0 <= i < |chunks| && x == SourceName(names, chunks[i]) {
        var i :| 0 <= i < |all| && all[i] == x;
        assert x == SourceName(names, chunks[i]);
      }
      forall x | exists i :: 0 <= i < |chunks| && x == SourceName(names, chunks[i]) ensures x in all {
        var i :| 0 <= i < |chunks| && x == SourceName(names, chunks[i]);
        assert all[i] == x;
      }
    }
    SortedSet(all)
  }

  /** The try block of the handler. */
  function HandlerBody(s: Store, question: string, io: QueryIo, svc: Services): Result<QueryReply, Raised>
  {
    match svc.embed(question)
    case None => Failure(OtherRaised)
    case Some(q) =>
      // the bound parameter has the column's `Vector(384)` type
      if !io.searchOk || !HasDimension(q) then Failure(OtherRaised)
      else
        var chunks := Search(s, svc, q);
        if |chunks| == 0 then Failure(HttpRaised(NothingRelevant))
        else if !io.lookupOk then Failure(OtherRaised)
        else
          var names := FilenameLookup(s, DocumentIds(chunks));
          var answer := svc.generate(question, Context(chunks));
          Success(QueryReply(answer, Sources(chunks, names)))
  }

  /** The two except clauses. */
  function Except(raised: Raised): (f: Failure)
    ensures raised.HttpRaised? ==> f == raised.failure
    ensures raised.OtherRaised? ==> Status(f) == InternalServerError
  {
    match raised
    case HttpRaised(f) => f
    case OtherRaised => Internal
  }

  /** `POST /query`: the try block under its except clauses. The route
      fails only with 404 or 500, and answers from at least one chunk. */
  function Query(s: Store, question: string, io: QueryIo, svc: Services): (r: Result<QueryReply, Failure>)
    ensures r.Failure? ==> r.error == NothingRelevant || r.error == Internal
    ensures r.Failure? ==> Status(r.error) in {NotFound, InternalServerError}
    ensures r.Success? ==> svc.embed(question).Some? && |s.chunks| > 0
  {
    match HandlerBody(s, question, io, svc)
    case Success(reply) => Success(reply)
    case Failure(raised) => Failure(Except(raised))
  }

  /** The route answers 404 exactly when the question was embedded with 384
      components, the search ran and it found no chunk, that is, when the
      store holds none; every other failure is a 500. */
  lemma QueryFailureStatus(s: Store, question: string, io: QueryIo, svc: Services)
    ensures Query(s, question, io, svc) == Failure(NothingRelevant)
            <==> && svc.embed(question).Some? && HasDimension(svc.embed(question).value)
                 && io.searchOk && |s.chunks| == 0
    ensures Query(s, question, io, svc).Failure? ==>
              Query(s, question, io, svc).error in {NothingRelevant, Internal}
    ensures Query(s, question, io, svc).Failure? && Query(s, question, io, svc).error != NothingRelevant ==>
              Status(Query(s, question, io, svc).error) == InternalServerError
  {
  }

  /** With no chunk found the generator is never consulted: the outcome is
      the same whatever generator is plugged in. */
  lemma NoChunksNoGenerator(s: Store, question: string, io: QueryIo, svc: Services, other: (string, string) -> string)
    requires |s.chunks| == 0
    ensures Query(s, question, io, svc) == Query(s, question, io, svc.(generate := other))
    ensures Query(s, question, io, svc).Success? == false
  {
  }

  /** The route succeeds exactly when the question embeds with 384
      components, both database reads succeed, and the store holds at least
      one chunk. */
  lemma QuerySucceeds(s: Store, question: string, io: QueryIo, svc: Services)
    ensures Query(s, question, io, svc).Success?
            <==> && svc.embed(question).Some? && HasDimension(svc.embed(question).value)
                 && io.searchOk && io.lookupOk && |s.chunks| > 0
  {
  }

  /** A successful answer: one to five retrieved chunks whose contents, in
      retrieval order and joined by the separator, are handed to the
      generator with the question; the sources are sorted, distinct, and
      exactly the names of the retrieved chunks' documents. */
  lemma QueryAnswer(s: Store, question: string, io: QueryIo, svc: Services)
    requires Query(s, question, io, svc).Success?
    ensures svc.embed(question).Some? && HasDimension(svc.embed(question).value)
    ensures var chunks := Search(s, svc, svc.embed(question).value);
            var names := FilenameLookup(s, DocumentIds(chunks));
            var reply := Query(s, question, io, svc).value;
      && 1 <= |chunks| <= Limit
      && reply.answer == svc.generate(question, Join(Contents(chunks), ContextSeparator))
      && StrictlySorted(reply.sources)
      && |reply.sources| <= |chunks|
      && (forall x :: x in reply.sources <==> exists i :: 0 <= i < |chunks| && x == SourceName(names, chunks[i]))
  {
  }

  /** The retrieved chunks are what `ORDER BY distance LIMIT 5` returns:
      stored chunks, as many as the store holds up to five, nearest first,
      and no stored chunk left out is nearer than one retrieved. */
  lemma SearchOrder(s: Store, svc: Services, q: Vector)
    ensures |Search(s, svc, q)| == Min(Limit, |s.chunks|)
    ensures forall c | c in Search(s, svc, q) :: c in s.chunks.Values
    ensures SortedBy(DistanceTo(svc, q), Search(s, svc, q))
    ensures forall c, x | c in Search(s, svc, q) && x in s.chunks.Values && x !in Search(s, svc, q) ::
              svc.distance(c.embedding, q) <= svc.distance(x.embedding, q)
  {
    var key := DistanceTo(svc, q);
    NearestSorted(Rows(s), key, Limit);
    forall c | c in Search(s, svc, q) ensures c in s.chunks.Values {
      NearestMember(Rows(s), key, Limit, c);
    }
    forall c, x | c in Search(s, svc, q) && x in s.chunks.Values && x !in Search(s, svc, q)
      ensures svc.distance(c.embedding, q) <= svc.distance(x.embedding, q)
    {
      NearestClosest(Rows(s), key, Limit, x);
      assert key(c) <= key(x);
    }
  }

  /** In a valid store the search returns distinct rows: no two retrieved
      chunks share an id. */
  lemma SearchDistinct(s: Store, svc: Services, q: Vector)
    requires Valid(s)
    ensures forall i, j | 0 <= i < j < |Search(s, svc, q)| :: Search(s, svc, q)[i].id != Search(s, svc, q)[j].id
  {
    var r := Search(s, svc, q);
    RowsAscending(s);
    NearestDistinct(Rows(s), DistanceTo(svc, q), Limit);
    forall i, j | 0 <= i < j < |r| ensures r[i].id != r[j].id {
      NearestMember(Rows(s), DistanceTo(svc, q), Limit, r[i]);
      NearestMember(Rows(s), DistanceTo(svc, q), Limit, r[j]);
      StoredUnderId(s, r[i]);
      StoredUnderId(s, r[j]);
    }
  }

  /** In a valid store every retrieved chunk's document exists, so the
      default name is never used: each source is the filename of a stored
      document that owns one of the retrieved chunks. */
  lemma SourcesNameStoredDocuments(s: Store, svc: Services, q: Vector)
    requires Valid(s)
    ensures var chunks := Search(s, svc, q);
            forall x | x in Sources(chunks, FilenameLookup(s, DocumentIds(chunks))) ::
              exists c :: c in chunks && c.documentId in s.docs && x == s.docs[c.documentId].filename
  {
    var chunks := Search(s, svc, q);
    var names := FilenameLookup(s, DocumentIds(chunks));
    forall x | x in Sources(chunks, names)
      ensures exists c :: c in chunks && c.documentId in s.docs && x == s.docs[c.documentId].filename
    {
      var i :| 0 <= i < |chunks| && x == SourceName(names, chunks[i]);
      var c := chunks[i];
      NearestMember(Rows(s), DistanceTo(svc, q), Limit, c);
      assert (forall cid | cid in s.chunks :: s.chunks[cid] != c) ==> c !in s.chunks.Values;
      var cid :| cid in s.chunks && s.chunks[cid] == c;
      assert c.documentId in s.docs;
      assert c.documentId in DocumentIds(chunks);
    }
  }
}

=== FILE: retrieval.dfy ===
/**
 The nearest-neighbour search of the query route:
 `SELECT * FROM chunks ORDER BY embedding <-> q LIMIT k`.

 The distance of a chunk is an opaque `key`. `Nearest` orders the rows by
 key with a stable sort and keeps the first k. The database may break ties
 in any order; `IsOrderByLimit` admits every such answer, and `Nearest` is
 shown to be one of them.
 */
module Retrieval {
  import opened Models

  function Min(a: nat, b: nat): nat
  {
    if a <= b then a else b
  }

  /** Non-decreasing distance along the sequence. */
  predicate SortedBy(key: Chunk -> real, xs: seq<Chunk>)
  {
    forall i, j :: 0 <= i < j < |xs| ==> key(xs[i]) <= key(xs[j])
  }

  /** The answers `ORDER BY key LIMIT k` may give on the rows `pool`: the
      first k rows of some ordering of the whole table by key. */
  ghost predicate IsOrderByLimit(pool: seq<Chunk>, key: Chunk -> real, k: nat, r: seq<Chunk>)
  {
    exists sorted: seq<Chunk> ::
      && multiset(sorted) == multiset(pool)
      && SortedBy(key, sorted)
      && r == sorted[..Min(k, |sorted|)]
  }

  /** Places `x` before the first row of `xs` that is not closer than it. */
  function InsertByKey(x: Chunk, xs: seq<Chunk>, key: Chunk -> real): (r: seq<Chunk>)
    ensures |r| == |xs| + 1
  {
    if |xs| == 0 || key(x) <= key(xs[0]) then [x] + xs
    else [xs[0]] + InsertByKey(x, xs[1..], key)
  }

  /** All rows ordered by key; rows at equal key keep their order in `xs`. */
  function SortByKey(xs: seq<Chunk>, key: Chunk -> real): (r: seq<Chunk>)
    ensures |r| == |xs|
  {
    if |xs| == 0 then [] else InsertByKey(xs[0], SortByKey(xs[1..], key), key)
  }

  /** The first `k` rows by distance, closest first. */
  function Nearest(pool: seq<Chunk>, key: Chunk -> real, k: nat): (r: seq<Chunk>)
    ensures |r| == Min(k, |pool|)
  {
    SortByKey(pool, key)[..Min(k, |pool|)]
  }

  lemma {:induction false} InsertMultiset(x: Chunk, xs: seq<Chunk>, key: Chunk -> real)
    ensures multiset(InsertByKey(x, xs, key)) == multiset(xs) + multiset{x}
    decreases |xs|
  {
    if |xs| > 0 && key(x) > key(xs[0]) {
      InsertMultiset(x, xs[1..], key);
      assert xs == [xs[0]] + xs[1..];
    }
  }

  lemma InsertMember(x: Chunk, xs: seq<Chunk>, key: Chunk -> real, y: Chunk)
    requires y in InsertByKey(x, xs, key)
    ensures y == x || y in xs
  {
    InsertMultiset(x, xs, key);
    assert y in multiset(InsertByKey(x, xs, key));
  }

  lemma SortedTail(key: Chunk -> real, xs: seq<Chunk>)
    requires |xs| > 0 && SortedBy(key, xs)
    ensures SortedBy(key, xs[1..])
    ensures forall y | y in xs[1..] :: key(xs[0]) <= key(y)
  {
    forall y | y in xs[1..] ensures key(xs[0]) <= key(y) {
      var j :| 0 <= j < |xs[1..]| && xs[1..][j] == y;
      assert xs[j + 1] == y;
    }
  }

  lemma ConsSorted(key: Chunk -> real, a: Chunk, tail: seq<Chunk>)
    requires SortedBy(key, tail)
    requires forall x | x in tail :: key(a) <= key(x)
    ensures SortedBy(key, [a] + tail)
  {
    var r := [a] + tail;
    forall i, j | 0 <= i < j < |r| ensures key(r[i]) <= key(r[j]) {
      assert r[j] == tail[j - 1];
      if i > 0 {
        assert r[i] == tail[i - 1];
      }
    }
  }

  /** Inserting into a sorted sequence keeps it sorted. */
  lemma {:induction false} InsertSorted(x: Chunk, xs: seq<Chunk>, key: Chunk -> real)
    requires SortedBy(key, xs)
    ensures SortedBy(key, InsertByKey(x, xs, key))
    decreases |xs|
  {
    if |xs| == 0 {
      ConsSorted(key, x, xs);
    } else if key(x) <= key(xs[0]) {
      SortedTail(key, xs);
      assert forall y | y in xs :: key(x) <= key(y) by {
        forall y | y in xs ensures key(x) <= key(y) {
          if y != xs[0] {
            assert y in xs[1..] by {
              var j :| 0 <= j < |xs| && xs[j] == y;
              assert xs[1..][j - 1] == y;
            }
          }
        }
      }
      ConsSorted(key, x, xs);
    } else {
      SortedTail(key, xs);
      var tail := InsertByKey(x, xs[1..], key);
      InsertSorted(x, xs[1..], key);
      forall y | y in tail ensures key(xs[0]) <= key(y) {
        InsertMember(x, xs[1..], key, y);
      }
      ConsSorted(key, xs[0], tail);
    }
  }

  /** Sorting keeps every row, each as often as it occurs. */
  lemma {:induction false} SortPermutation(xs: seq<Chunk>, key: Chunk -> real)
    ensures multiset(SortByKey(xs, key)) == multiset(xs)
    decreases |xs|
  {
    if |xs| > 0 {
      SortPermutation(xs[1..], key);
      InsertMultiset(xs[0], SortByKey(xs[1..], key), key);
      assert xs == [xs[0]] + xs[1..];
    }
  }

  /** Sorting orders the rows by key. */
  lemma {:induction false} SortSorted(xs: seq<Chunk>, key: Chunk -> real)
    ensures SortedBy(key, SortByKey(xs, key))
    decreases |xs|
  {
    if |xs| > 0 {
      SortSorted(xs[1..], key);
      InsertSorted(xs[0], SortByKey(xs[1..], key), key);
    }
  }

  /** `Nearest` is one of the answers the database may give. */
  lemma NearestIsOrderByLimit(pool: seq<Chunk>, key: Chunk -> real, k: nat)
    ensures IsOrderByLimit(pool, key, k, Nearest(pool, key, k))
  {
    var sorted := SortByKey(pool, key);
    SortPermutation(pool, key);
    SortSorted(pool, key);
    assert Nearest(pool, key, k) == sorted[..Min(k, |sorted|)];
  }

  /** The rows come closest first. */
  lemma NearestSorted(pool: seq<Chunk>, key: Chunk -> real, k: nat)
    ensures SortedBy(key, Nearest(pool, key, k))
  {
    SortSorted(pool, key);
  }

  /** Every row returned is a row of the table, and none twice over. */
  lemma NearestFromPool(pool: seq<Chunk>, key: Chunk -> real, k: nat)
    ensures multiset(Nearest(pool, key, k)) <= multiset(pool)
  {
    var s := SortByKey(pool, key);
    var n := Min(k, |pool|);
    SortPermutation(pool, key);
    assert s == s[..n] + s[n..];
    assert multiset(s) == multiset(s[..n]) + multiset(s[n..]);
  }

  lemma NearestMember(pool: seq<Chunk>, key: Chunk -> real, k: nat, x: Chunk)
    requires x in Nearest(pool, key, k)
    ensures x in pool
  {
    NearestFromPool(pool, key, k);
    assert x in multiset(Nearest(pool, key, k));
  }

  /** No row left out is closer than a row returned. */
  lemma NearestClosest(pool: seq<Chunk>, key: Chunk -> real, k: nat, x: Chunk)
    requires x in pool && x !in Nearest(pool, key, k)
    ensures forall y | y in Nearest(pool, key, k) :: key(y) <= key(x)
  {
    var s := SortByKey(pool, key);
    var n := Min(k, |pool|);
    var r := Nearest(pool, key, k);
    SortPermutation(pool, key);
    SortSorted(pool, key);
    assert x in multiset(s);
    var j :| 0 <= j < |s| && s[j] == x;
    forall i | 0 <= i < n ensures s[i] != x {
      assert r[i] == s[i];
    }
    forall y | y in r ensures key(y) <= key(x) {
      var i :| 0 <= i < |r| && r[i] == y;
      assert s[i] == y;
    }
  }

  /** No row occurs twice. */
  predicate Distinct(xs: seq<Chunk>)
  {
    forall i, j | 0 <= i < j < |xs| :: xs[i] != xs[j]
  }

  lemma {:induction false} DistinctOnce(xs: seq<Chunk>, x: Chunk)
    requires Distinct(xs)
    ensures multiset(xs)[x] <= 1
    decreases |xs|
  {
    if |xs| > 0 {
      var tail := xs[1..];
      assert Distinct(tail) by {
        forall i, j | 0 <= i < j < |tail| ensures tail[i] != tail[j] {
          assert tail[i] == xs[i + 1] && tail[j] == xs[j + 1];
        }
      }
      DistinctOnce(tail, x);
      assert xs == [xs[0]] + tail;
      assert forall j | 0 <= j < |tail| :: tail[j] != xs[0] by {
        forall j | 0 <= j < |tail| ensures tail[j] != xs[0] {
          assert tail[j] == xs[j + 1];
        }
      }
      assert xs[0] !in tail;
    }
  }

  lemma Twice(xs: seq<Chunk>, i: nat, j: nat)
    requires i < j < |xs|
    ensures xs[i] == xs[j] ==> multiset(xs)[xs[j]] >= 2
  {
    assert xs == xs[..j] + xs[j..];
    assert xs[i] in xs[..j];
    assert xs[j] in xs[j..];
  }

  /** The database returns each row at most once. */
  lemma NearestDistinct(pool: seq<Chunk>, key: Chunk -> real, k: nat)
    requires Distinct(pool)
    ensures Distinct(Nearest(pool, key, k))
  {
    var r := Nearest(pool, key, k);
    NearestFromPool(pool, key, k);
    forall i, j | 0 <= i < j < |r| ensures r[i] != r[j] {
      DistinctOnce(pool, r[j]);
      Twice(r, i, j);
    }
  }
}

=== FILE: text.dfy ===
/**
 Operations on strings as the backend uses them: the `.txt` suffix test of
 the upload route, Python's `str.join` for the answer context, Python's
 ordering of `str` values, and `sorted(set(...))` over a list of names.
 */
module Text {

  /** `s.endswith(suffix)`: case-sensitive, on code points. */
  predicate EndsWith(s: string, suffix: string)
  {
    |suffix| <= |s| && s[|s| - |suffix|..] == suffix
  }

  /** `sep.join(parts)`. */
  function Join(parts: seq<string>, sep: string): (r: string)
    ensures |parts| == 0 ==> r == ""
    ensures |parts| == 1 ==> r == parts[0]
    ensures |parts| > 0 ==> parts[0] <= r
  {
    if |parts| == 0 then ""
    else if |parts| == 1 then parts[0]
    else parts[0] + sep + Join(parts[1..], sep)
  }

  /** Cutting the parts at any inner boundary cuts the joined string at one
      separator: together with the one-part case this pins `Join` down. */
  lemma {:induction false} JoinSplit(parts: seq<string>, sep: string, i: nat)
    requires 0 < i < |parts|
    ensures Join(parts, sep) == Join(parts[..i], sep) + sep + Join(parts[i..], sep)
  {
    if i == 1 {
      assert parts[..1] == [parts[0]];
      assert parts[1..] == parts[i..];
    } else {
      var tail := parts[1..];
      JoinSplit(tail, sep, i - 1);
      assert tail[..i - 1] == parts[..i][1..];
      assert tail[i - 1..] == parts[i..];
      var left := Join(tail[..i - 1], sep);
      var right := Join(parts[i..], sep);
      assert Join(parts[..i], sep) == parts[0] + sep + left;
      assert Join(parts, sep) == parts[0] + sep + (left + sep + right);
      assert parts[0] + sep + (left + sep + right) == (parts[0] + sep + left) + sep + right;
    }
  }

  /** The joined string is as long as its parts plus one separator between
      each neighbouring pair. */
  lemma {:induction false} JoinLength(parts: seq<string>, sep: string)
    requires |parts| > 0
    ensures |Join(parts, sep)| == TotalLength(parts) + (|parts| - 1) * |sep|
  {
    if |parts| > 1 {
      JoinLength(parts[1..], sep);
    }
  }

  function TotalLength(parts: seq<string>): nat
  {
    if |parts| == 0 then 0 else |parts[0]| + TotalLength(parts[1..])
  }

  /** Python's `a < b` on `str`: the first differing code point decides; a
      proper prefix comes first. */
  predicate Less(a: string, b: string)
  {
    if |a| == 0 then |b| > 0
    else if |b| == 0 then false
    else if a[0] != b[0] then a[0] < b[0]
    else Less(a[1..], b[1..])
  }

  lemma {:induction false} LessIrreflexive(a: string)
    ensures !Less(a, a)
  {
    if |a| > 0 {
      LessIrreflexive(a[1..]);
    }
  }

  lemma {:induction false} LessTransitive(a: string, b: string, c: string)
    requires Less(a, b) && Less(b, c)
    ensures Less(a, c)
  {
    if |a| > 0 && a[0] == b[0] && b[0] == c[0] {
      LessTransitive(a[1..], b[1..], c[1..]);
    }
  }

  /** Any two different strings are ordered one way or the other. */
  lemma {:induction false} LessTotal(a: string, b: string)
    requires a != b
    ensures Less(a, b) || Less(b, a)
  {
    if |a| > 0 && |b| > 0 && a[0] == b[0] {
      assert a == [a[0]] + a[1..] && b == [b[0]] + b[1..];
      LessTotal(a[1..], b[1..]);
    }
  }

  lemma LessAsymmetric(a: string, b: string)
    requires Less(a, b)
    ensures !Less(b, a)
  {
    if Less(b, a) {
      LessTransitive(a, b, a);
      LessIrreflexive(a);
    }
  }

  /** Strictly ascending, hence free of duplicates. */
  predicate StrictlySorted(xs: seq<string>)
  {
    forall i, j :: 0 <= i < j < |xs| ==> Less(xs[i], xs[j])
  }

  lemma StrictlySortedDistinct(xs: seq<string>, i: nat, j: nat)
    requires StrictlySorted(xs) && i < j < |xs|
    ensures xs[i] != xs[j]
  {
    LessIrreflexive(xs[i]);
  }

  /** Places `x` into an ascending duplicate-free list, keeping it so. */
  function Insert(x: string, xs: seq<string>): (r: seq<string>)
    requires StrictlySorted(xs)
    ensures StrictlySorted(r)
    ensures forall y :: y in r <==> y == x || y in xs
    ensures |r| <= |xs| + 1
  {
    if |xs| == 0 then [x]
    else if x == xs[0] then xs
    else if Less(x, xs[0]) then
      assert forall j :: 0 < j < |xs| ==> Less(xs[0], xs[j]);
      forall j | 0 < j < |xs| ensures Less(x, xs[j]) {
        LessTransitive(x, xs[0], xs[j]);
      }
      [x] + xs
    else
      LessTotal(x, xs[0]);
      var rest := Insert(x, xs[1..]);
      assert forall y :: y in rest ==> Less(xs[0], y) by {
        forall y | y in rest ensures Less(xs[0], y) {
          if y != x {
            var j :| 0 <= j < |xs[1..]| && xs[1..][j] == y;
            assert xs[j + 1] == y;
          }
        }
      }
      [xs[0]] + rest
  }

  /** `sorted(set(xs))`. */
  function SortedSet(xs: seq<string>): (r: seq<string>)
    ensures StrictlySorted(r)
    ensures forall y :: y in r <==> y in xs
    ensures |r| <= |xs|
  {
    if |xs| == 0 then []
    else
      var r := Insert(xs[0], SortedSet(xs[1..]));
      assert forall y :: y in xs <==> y == xs[0] || y in xs[1..];
      r
  }

  /** The head of an ascending list is below every other element. */
  lemma HeadIsLeast(xs: seq<string>, y: string)
    requires StrictlySorted(xs) && y in xs
    ensures y == xs[0] || Less(xs[0], y)
  {
  }

  /** There is only one strictly ascending list of a given set of strings,
      so `SortedSet` is `sorted(set(xs))` whatever way it is computed. */
  lemma {:induction false} StrictlySortedUnique(a: seq<string>, b: seq<string>)
    requires StrictlySorted(a) && StrictlySorted(b)
    requires forall y :: y in a <==> y in b
    ensures a == b
  {
    assert |a| > 0 ==> a[0] in a;
    assert |b| > 0 ==> b[0] in b;
    if |a| > 0 && |b| > 0 {
      HeadIsLeast(a, b[0]);
      HeadIsLeast(b, a[0]);
      if Less(a[0], b[0]) { LessAsymmetric(a[0], b[0]); }
      assert a[0] == b[0];
      forall y ensures y in a[1..] <==> y in b[1..] {
        if y in a[1..] {
          var i :| 0 <= i < |a[1..]| && a[1..][i] == y;
          StrictlySortedDistinct(a, 0, i + 1);
          assert y in a;
          var j :| 0 <= j < |b| && b[j] == y;
          assert j != 0;
          assert b[1..][j - 1] == y;
        }
        if y in b[1..] {
          var i :| 0 <= i < |b[1..]| && b[1..][i] == y;
          StrictlySortedDistinct(b, 0, i + 1);
          assert y in b;
          var j :| 0 <= j < |a| && a[j] == y;
          assert j != 0;
          assert a[1..][j - 1] == y;
        }
      }
      StrictlySortedUnique(a[1..], b[1..]);
      assert a == [a[0]] + a[1..] && b == [b[0]] + b[1..];
    }
  }
}

=== FILE: upload.dfy ===
/**
 `POST /upload`: the upload route as one step over the store.

 Its steps run in a fixed order, and that order decides what is durable when
 a step fails:
 1. the filename must end in `.txt`, else 400 and nothing happens;
 2. the file is written to disk, else 500;
 3. a documents row is inserted and COMMITTED, else 500 (rolled back),
    and then re-read; a re-read that raises is also a 500, but the row it
    failed to read is already committed and stays;
 4. the saved file is read back as UTF-8 and cut into pieces, else 400;
 5. each piece is embedded in turn; the first failure is a 500 naming the
    piece (1-based) and later pieces are not embedded;
 6. one chunks row per piece is added, and all are committed together; an
    error here is not caught by the route, so the framework answers 500.
 A failure after the commit of step 3 therefore leaves the new document
 committed with no chunks at all.
 */
module UploadRoute {
  import opened Wrappers
  import opened Models
  import opened Http
  import opened Collaborators
  import Text

  const TxtSuffix: string := ".txt"

  /** The uploaded file: its name, and its bytes read back from disk as
      UTF-8 text (`None` when reading or decoding raises). */
  datatype UploadFile = UploadFile(filename: string, text: Option<string>)

  /** What the disk and the database do during one upload, and the database
      clock at each of the two commits. `documentRefreshed` is the re-read
      of the new row right after its commit. */
  datatype UploadIo = UploadIo(
    saved: bool,
    documentCommitted: bool,
    documentRefreshed: bool,
    chunksCommitted: bool,
    documentTime: Time,
    chunksTime: Time)

  datatype UploadReply = UploadReply(id: int, filename: string)

  /** The store after the request, whether it succeeded or not, and the reply. */
  datatype UploadOutcome = UploadOutcome(store: Store, reply: Result<UploadReply, Failure>)

  datatype Embedding = Embedded(vectors: seq<Vector>) | EmbedFailedAt(piece: nat)

  /** The loop over `enumerate(pieces, start=1)`: embeds pieces in order and
      stops at the first one whose embedding raises. */
  function EmbedAll(pieces: seq<string>, embed: string -> Option<Vector>): (r: Embedding)
    ensures r.Embedded? ==>
              && |r.vectors| == |pieces|
              && forall i :: 0 <= i < |pieces| ==> embed(pieces[i]) == Some(r.vectors[i])
    ensures r.EmbedFailedAt? ==>
              && 1 <= r.piece <= |pieces|
              && embed(pieces[r.piece - 1]).None?
              && forall i :: 0 <= i < r.piece - 1 ==> embed(pieces[i]).Some?
  {
    if |pieces| == 0 then Embedded([])
    else match embed(pieces[0])
      case None => EmbedFailedAt(1)
      case Some(v) =>
        match EmbedAll(pieces[1..], embed)
        case Embedded(vs) => Embedded([v] + vs)
        case EmbedFailedAt(idx) => EmbedFailedAt(idx + 1)
  }

  /** Pieces after the failing one are never handed to the embedder: any
      embedder that agrees on the pieces up to the failing one gives the
      same outcome. */
  lemma {:induction false} EmbedStopsAtFailure(pieces: seq<string>, e1: string -> Option<Vector>, e2: string -> Option<Vector>)
    requires EmbedAll(pieces, e1).EmbedFailedAt?
    requires forall i :: 0 <= i < EmbedAll(pieces, e1).piece ==> e1(pieces[i]) == e2(pieces[i])
    ensures EmbedAll(pieces, e2) == EmbedAll(pieces, e1)
  {
    if e1(pieces[0]).Some? {
      var tail := pieces[1..];
      assert forall i :: 0 <= i < |tail| ==> tail[i] == pieces[i + 1];
      EmbedStopsAtFailure(tail, e1, e2);
    }
  }

  /** Every piece embeds exactly when the loop runs to the end. */
  lemma {:induction false} EmbedAllSucceeds(pieces: seq<string>, embed: string -> Option<Vector>)
    ensures EmbedAll(pieces, embed).Embedded? <==> forall i :: 0 <= i < |pieces| ==> embed(pieces[i]).Some?
  {
    var r := EmbedAll(pieces, embed);
    if r.EmbedFailedAt? {
      assert embed(pieces[r.piece - 1]).None?;
    }
  }

  predicate AllHaveDimension(vectors: seq<Vector>)
  {
    forall i | 0 <= i < |vectors| :: HasDimension(vectors[i])
  }

  /** Steps 5 and 6, once the document `docId` is committed in `s`. */
  function StorePieces(s: Store, docId: int, filename: string, pieces: seq<string>, io: UploadIo, svc: Services): (out: UploadOutcome)
    ensures out.reply.Failure? ==> out.store == s
    ensures out.reply.Failure? ==> out.reply.error.EmbeddingFailed? || out.reply.error == ChunksNotCommitted
    // the chunk rows become durable only through the one commit after the loop
    ensures out.reply == Failure(ChunksNotCommitted)
            <==> EmbedAll(pieces, svc.embed).Embedded?
                 && (!io.chunksCommitted || !AllHaveDimension(EmbedAll(pieces, svc.embed).vectors))
    ensures out.reply.Success? ==>
              && io.chunksCommitted
              && EmbedAll(pieces, svc.embed).Embedded?
              && AllHaveDimension(EmbedAll(pieces, svc.embed).vectors)
              && out.store == AddChunks(s, docId, pieces, EmbedAll(pieces, svc.embed).vectors, io.chunksTime)
              && out.reply.value == UploadReply(docId, filename)
  {
    match EmbedAll(pieces, svc.embed)
    case EmbedFailedAt(idx) => UploadOutcome(s, Failure(EmbeddingFailed(idx)))
    case Embedded(vectors) =>
      if !io.chunksCommitted || !AllHaveDimension(vectors) then UploadOutcome(s, Failure(ChunksNotCommitted))
      else UploadOutcome(AddChunks(s, docId, pieces, vectors, io.chunksTime), Success(UploadReply(docId, filename)))
  }

  function Upload(s: Store, file: UploadFile, io: UploadIo, svc: Services): (out: UploadOutcome)
    // the suffix check comes first and changes nothing
    ensures out.reply == Failure(NotTxt) <==> !Text.EndsWith(file.filename, TxtSuffix)
    ensures !Committed(file, io) ==> out.store == s && out.reply.Failure?
    // past the document commit the new row stays, with the default status
    ensures Committed(file, io) ==>
              && out.store.docs == s.docs[s.nextDocId := Document(s.nextDocId, file.filename, Pending, io.documentTime)]
              && out.store.nextDocId == s.nextDocId + 1
    // the chunks table changes only on success
    ensures out.reply.Failure? ==> out.store.chunks == s.chunks
    ensures out.reply.Success? ==> out.reply.value == UploadReply(s.nextDocId, file.filename)
  {
    if !Text.EndsWith(file.filename, TxtSuffix) then UploadOutcome(s, Failure(NotTxt))
    else if !io.saved then UploadOutcome(s, Failure(SaveFailed))
    else if !io.documentCommitted then UploadOutcome(s, Failure(DocumentNotRecorded))
    else
      var (s1, docId) := AddDocument(s, file.filename, io.documentTime);
      if !io.documentRefreshed then UploadOutcome(s1, Failure(DocumentNotRecorded))
      else match file.text
      case None => UploadOutcome(s1, Failure(Unreadable))
      case Some(text) =>
        match svc.chunkText(text)
        case None => UploadOutcome(s1, Failure(Unreadable))
        case Some(pieces) => StorePieces(s1, docId, file.filename, pieces, io, svc)
  }

  /** An upload, whatever its outcome, keeps the store valid, and every
      document in it still has the default status. */
  lemma UploadKeepsValid(s: Store, file: UploadFile, io: UploadIo, svc: Services)
    requires Valid(s)
    ensures Valid(Upload(s, file, io, svc).store)
    ensures AllPending(s) ==> AllPending(Upload(s, file, io, svc).store)
  {
    var out := Upload(s, file, io, svc);
    if out.reply.Success? {
      UploadSuccessStore(s, file, io, svc);
      var s1 := AddDocument(s, file.filename, io.documentTime).0;
      var pieces := svc.chunkText(file.text.value).value;
      AddChunksValid(s1, s.nextDocId, pieces, EmbedAll(pieces, svc.embed).vectors, io.chunksTime);
    }
  }

  /** The suffix check, the disk write and the document commit all passed:
      the new documents row is durable. */
  predicate Committed(file: UploadFile, io: UploadIo)
  {
    Text.EndsWith(file.filename, TxtSuffix) && io.saved && io.documentCommitted
  }

  /** The committed row was also re-read, so the route goes on to the text. */
  predicate Recorded(file: UploadFile, io: UploadIo)
  {
    Committed(file, io) && io.documentRefreshed
  }

  /** Once the documents row is committed it stays, with the default status,
      whatever happens next; a request that then fails leaves it with no
      chunk at all. */
  lemma CommittedBeforeChunking(s: Store, file: UploadFile, io: UploadIo, svc: Services)
    requires Valid(s) && Committed(file, io)
    ensures var out := Upload(s, file, io, svc);
      && s.nextDocId !in s.docs
      && s.nextDocId in out.store.docs
      && out.store.docs[s.nextDocId] == Document(s.nextDocId, file.filename, Pending, io.documentTime)
      && (out.reply.Failure? ==> ChunksOf(out.store, s.nextDocId) == {})
  {
    var s1 := AddDocument(s, file.filename, io.documentTime).0;
    assert ChunksOf(s1, s.nextDocId) == {};
  }

  /** A refusal before the document commit leaves the store as it was; a
      re-read that raises after the commit is refused too, but the committed
      row stays. */
  lemma RejectedBeforeRecording(s: Store, file: UploadFile, io: UploadIo, svc: Services)
    requires !Recorded(file, io)
    ensures !Committed(file, io) ==> Upload(s, file, io, svc).store == s
    ensures Committed(file, io) ==>
              && Upload(s, file, io, svc).store == AddDocument(s, file.filename, io.documentTime).0
              && Upload(s, file, io, svc).reply == Failure(DocumentNotRecorded)
    ensures Upload(s, file, io, svc).reply.Failure?
    ensures !Text.EndsWith(file.filename, TxtSuffix) ==> Status(Upload(s, file, io, svc).reply.error) == BadRequest
    ensures Text.EndsWith(file.filename, TxtSuffix) ==> Status(Upload(s, file, io, svc).reply.error) == InternalServerError
  {
  }

  /** The store a successful upload leaves: the new document, then its
      chunks. */
  lemma UploadSuccessStore(s: Store, file: UploadFile, io: UploadIo, svc: Services)
    requires Upload(s, file, io, svc).reply.Success?
    ensures Recorded(file, io) && io.chunksCommitted
    ensures file.text.Some? && svc.chunkText(file.text.value).Some?
    ensures var pieces := svc.chunkText(file.text.value).value;
            var e := EmbedAll(pieces, svc.embed);
      && e.Embedded?
      && AllHaveDimension(e.vectors)
      && Upload(s, file, io, svc).store
         == AddChunks(AddDocument(s, file.filename, io.documentTime).0, s.nextDocId, pieces, e.vectors, io.chunksTime)
  {
  }

  /** The upload succeeds exactly when every step passes: the suffix, the
      disk write, the document commit and re-read, the read and the
      chunking, every embedding, the 384 dimension, and the final commit. */
  lemma UploadSucceeds(s: Store, file: UploadFile, io: UploadIo, svc: Services)
    ensures Upload(s, file, io, svc).reply.Success?
            <==> && Recorded(file, io) && io.chunksCommitted
                 && file.text.Some? && svc.chunkText(file.text.value).Some?
                 && EmbedAll(svc.chunkText(file.text.value).value, svc.embed).Embedded?
                 && AllHaveDimension(EmbedAll(svc.chunkText(file.text.value).value, svc.embed).vectors)
  {
  }

  /** A successful upload adds exactly one chunk per piece, in order, each
      owned by the new document, holding that piece and its embedding. */
  lemma UploadChunksInOrder(s: Store, file: UploadFile, io: UploadIo, svc: Services)
    requires Valid(s)
    requires Upload(s, file, io, svc).reply.Success?
    ensures file.text.Some? && svc.chunkText(file.text.value).Some?
    ensures var pieces := svc.chunkText(file.text.value).value;
            var out := Upload(s, file, io, svc).store;
      && ChunksOf(out, s.nextDocId) == Span(s.nextChunkId, |pieces|)
      && |ChunksOf(out, s.nextDocId)| == |pieces|
      && forall i :: 0 <= i < |pieces| ==>
           && svc.embed(pieces[i]).Some?
           && s.nextChunkId + i in out.chunks
           && out.chunks[s.nextChunkId + i]
              == Chunk(s.nextChunkId + i, s.nextDocId, pieces[i], svc.embed(pieces[i]).value, io.chunksTime)
  {
    UploadSuccessStore(s, file, io, svc);
    var pieces := svc.chunkText(file.text.value).value;
    NewDocumentRows(s, file.filename, io.documentTime, pieces, EmbedAll(pieces, svc.embed).vectors, io.chunksTime, svc.embed);
  }

  /** The chunks added for a document just recorded in a valid store. */
  lemma NewDocumentRows(s: Store, filename: string, docTime: Time, pieces: seq<string>, vectors: seq<Vector>, now: Time,
                        embed: string -> Option<Vector>)
    requires Valid(s) && |pieces| == |vectors|
    requires forall i :: 0 <= i < |pieces| ==> embed(pieces[i]) == Some(vectors[i])
    ensures var out := AddChunks(AddDocument(s, filename, docTime).0, s.nextDocId, pieces, vectors, now);
      && ChunksOf(out, s.nextDocId) == Span(s.nextChunkId, |pieces|)
      && |ChunksOf(out, s.nextDocId)| == |pieces|
      && forall i :: 0 <= i < |pieces| ==>
           && embed(pieces[i]).Some?
           && s.nextChunkId + i in out.chunks
           && out.chunks[s.nextChunkId + i] == Chunk(s.nextChunkId + i, s.nextDocId, pieces[i], embed(pieces[i]).value, now)
  {
    var s1 := AddDocument(s, filename, docTime).0;
    AddDocumentFresh(s, filename, docTime);
    AddChunksOwned(s1, s.nextDocId, pieces, vectors, now);
    EmbeddedRows(s1, s.nextDocId, pieces, vectors, now, embed);
  }

  /** The rows added for pieces that all embedded hold those embeddings. */
  lemma EmbeddedRows(s: Store, docId: int, pieces: seq<string>, vectors: seq<Vector>, now: Time,
                     embed: string -> Option<Vector>)
    requires |pieces| == |vectors|
    requires forall i :: 0 <= i < |pieces| ==> embed(pieces[i]) == Some(vectors[i])
    ensures var out := AddChunks(s, docId, pieces, vectors, now);
      forall i :: 0 <= i < |pieces| ==>
        && embed(pieces[i]).Some?
        && s.nextChunkId + i in out.chunks
        && out.chunks[s.nextChunkId + i] == Chunk(s.nextChunkId + i, docId, pieces[i], embed(pieces[i]).value, now)
  {
    var out := AddChunks(s, docId, pieces, vectors, now);
    forall i | 0 <= i < |pieces|
      ensures embed(pieces[i]).Some?
      ensures s.nextChunkId + i in out.chunks
      ensures out.chunks[s.nextChunkId + i] == Chunk(s.nextChunkId + i, docId, pieces[i], embed(pieces[i]).value, now)
    {
      AddChunksAt(s, docId, pieces, vectors, now, i);
      assert embed(pieces[i]).value == vectors[i];
    }
  }

  /** Reading, decoding or chunking that raises is answered 400, not 500. */
  lemma UnreadableIsBadRequest(s: Store, file: UploadFile, io: UploadIo, svc: Services)
    requires Recorded(file, io)
    ensures Upload(s, file, io, svc).reply == Failure(Unreadable)
            <==> file.text.None? || svc.chunkText(file.text.value).None?
  {
  }

  /** An embedding failure is a 500 naming the 1-based number of the first
      piece whose embedding raised. */
  lemma EmbeddingFailureNamesPiece(s: Store, file: UploadFile, io: UploadIo, svc: Services, idx: nat)
    requires Upload(s, file, io, svc).reply == Failure(EmbeddingFailed(idx))
    ensures Recorded(file, io) && file.text.Some? && svc.chunkText(file.text.value).Some?
    ensures var pieces := svc.chunkText(file.text.value).value;
      && 1 <= idx <= |pieces|
      && svc.embed(pieces[idx - 1]).None?
      && (forall i :: 0 <= i < idx - 1 ==> svc.embed(pieces[i]).Some?)
  {
  }

  /** An empty list of pieces is not refused: the upload succeeds and the
      new document has no chunk. */
  lemma EmptyChunkListAccepted(s: Store, file: UploadFile, io: UploadIo, svc: Services)
    requires Valid(s) && Recorded(file, io) && io.chunksCommitted
    requires file.text.Some? && svc.chunkText(file.text.value) == Some([])
    ensures Upload(s, file, io, svc).reply == Success(UploadReply(s.nextDocId, file.filename))
    ensures ChunksOf(Upload(s, file, io, svc).store, s.nextDocId) == {}
  {
    var s1 := AddDocument(s, file.filename, io.documentTime).0;
    assert Upload(s, file, io, svc).store.chunks == s1.chunks;
  }

  /** Filenames are not unique: uploading the same name twice keeps two
      documents under two different ids. */
  lemma SameFilenameTwice(s: Store, file: UploadFile, io1: UploadIo, io2: UploadIo, svc: Services)
    requires Upload(s, file, io1, svc).reply.Success?
    requires Upload(Upload(s, file, io1, svc).store, file, io2, svc).reply.Success?
    ensures var first := Upload(s, file, io1, svc);
            var second := Upload(first.store, file, io2, svc);
      && first.reply.value.id != second.reply.value.id
      && first.reply.value.id in second.store.docs
      && second.reply.value.id in second.store.docs
      && second.store.docs[first.reply.value.id].filename == file.filename
      && second.store.docs[second.reply.value.id].filename == file.filename
  {
    var first := Upload(s, file, io1, svc);
    var second := Upload(first.store, file, io2, svc);
    assert Recorded(file, io1) && Recorded(file, io2);
    var id1 := s.nextDocId;
    var id2 := first.store.nextDocId;
    assert id2 == id1 + 1;
    assert first.store.docs[id1].filename == file.filename;
    assert second.store.docs == first.store.docs[id2 := Document(id2, file.filename, Pending, io2.documentTime)];
  }
}

=== FILE: wrappers.dfy ===
/** Failure-carrying wrappers shared by every route of the model. */
module Wrappers {

  /** A value that may be absent: a collaborator that raised, a column left NULL. */
  datatype Option<+T> = None | Some(value: T)

  /** The outcome of a step that either produces a value or fails with an error. */
  datatype Result<+T, +E> = Success(value: T) | Failure(error: E)
}
